=== FILE: README.md ===
# Deye solar-logger frame decoder, modelled in Dafny

This project models the decoder in `proxymodules/deye.py`, a filter in a TCP proxy chain. It decodes the frames a Deye microinverter data logger uploads. A frame is an 11-byte header, a payload and a 2-byte footer:

| offset | size | field |
|---|---|---|
| 0 | 1 | magic |
| 1 | 2 | declared payload length, little-endian |
| 3 | 1 | unknown |
| 4 | 1 | message type |
| 5 | 1 | response id |
| 6 | 1 | request id |
| 7 | 4 | logger serial, little-endian |
| 11 | N | payload |
| N+11 | 1 | checksum |
| N+12 | 1 | footer magic |

The decoder classifies a frame by its message type. A data request (0x42) is further classified by the schema byte `payload[1]`. For a microinverter data request (schema byte 0x08), it evaluates the 22-entry field table `dfn42`. Each entry reads `len` bytes at payload offset `adr` and decodes them as one of:

- an unsigned little-endian integer;
- that integer divided by 10, 100 or 1000;
- ASCII text;
- a packed date-time.

The model has four modules, one per layer of the source:

- `Bytes` (`bytes.dfy`): Python's truncating slice `buf[a:a + l]` and `int.from_bytes(..., 'little')`. It has a positional-sum reference definition and an encoder that round-trips with the decoder.
- `Values` (`values.dfy`): the decoders `fn1`, `fn10`, `fn100`, `fn1000`, `fnascii` and `fnDT`, plus the decimal formatting `fnDT` uses. A parser for the rendered date-time serves as the round-trip partner.
- `Schema` (`schema.dfy`): the table `dfn42` as a constant sequence of records with a tagged decoder, `Integer | Scaled(Ten | Hundred | Thousand) | Ascii | DateTime`. It also holds the evaluation of one entry and the in-order evaluation of a prefix of the table.
- `Deye` (`deye.dfy`): the envelope split, the message-type and schema-byte classification, and the class `Module`. The class holds the mutable `loggerSerial` field and the methods `DecodePayload`, `DecodePacket` and `Execute`. `DecodePayload` classifies the payload and hands microinverter payloads to `FillFields`, which fills the result map in a loop over the table, as the source's `for` loop does.

Python exceptions are modelled as an `Outcome`: either `Ok(value)` or `Raised(IndexError | NonAsciiText)`. Where the code raises, the model returns `Raised`. Where the code silently truncates, the model truncates too:

- The integer and text decoders read truncating slices, so a short payload gives a smaller number or a shorter text.
- `fnDT` indexes `buf[a]` to `buf[a + 4]` and raises past the end.
- `payload[1]` raises on a payload shorter than 2 bytes.
- `pkg[0]` to `pkg[6]` raise on a frame shorter than 7 bytes.

Consequences the model states:

- The envelope split does not reject frames of 7 to 12 bytes. Their payload is empty, and their footer overlaps the header. Decoding then goes on with the empty payload, so such a frame raises only if its message type is 0x42, when `payload[1]` is read.
- The declared payload length is never checked against the payload.
- The footer checksum is never verified.
- A microinverter payload decodes without exception exactly when it has at least 250 bytes and its four text fields are ASCII. The date-time reads up to offset 249, and byte 250 (`adr + 5`) is never read.
- `loggerSerial` is stored before the payload is decoded. It is therefore updated even when payload decoding then raises, but not when the header itself is too short.

Where the source only prints, the model returns a value instead:

- `decode_payload` prints its result map `res` and returns nothing. `DecodePayload` returns the classification and `res`.
- `decode_packet` returns nothing. `DecodePacket` returns the split frame and its decoded payload.

## Model

| member | source | states |
|---|---|---|
| `Bytes.Slice` | proxymodules/deye.py:7 | `buf[a:a + l]` is clamped to the buffer: length `l` when in bounds, shorter (possibly empty) otherwise, and element `i` is `buf[a + i]` |
| `Bytes.LittleEndian` | proxymodules/deye.py:7 | the little-endian value of `l` bytes is below `256^l` |
| `Bytes.LittleEndianIsWeightedSum` | proxymodules/deye.py:6-7 | the decoded integer equals the sum of `buf[a + i] * 256^i` over `i` in `[0, l)` |
| `Bytes.LittleEndianOfBytes` | proxymodules/deye.py:6-7 | decoding the `n`-byte little-endian encoding of `v < 256^n` gives `v` |
| `Bytes.BytesOfLittleEndian` | proxymodules/deye.py:6-7 | re-encoding a decoded buffer at its width gives the buffer back, so decoding is injective per width |
| `Values.Fn1` | proxymodules/deye.py:6-7 | `fn1` is below `256^l`, and in bounds it equals the positional sum of the bytes |
| `Values.Fn10` | proxymodules/deye.py:9-10 | `fn10` times 10 is exactly `fn1` on the same bytes, non-negative and below `256^l / 10` |
| `Values.Fn100` | proxymodules/deye.py:12-13 | `fn100` times 100 is exactly `fn1` on the same bytes |
| `Values.Fn1000` | proxymodules/deye.py:15-16 | `fn1000` times 1000 is exactly `fn1` on the same bytes |
| `Values.ScaledExample` | proxymodules/deye.py:9-13 | raw little-endian 1234 reads as 123.4 in tenths and 12.34 in hundredths |
| `Values.SerialExample` | proxymodules/deye.py:146 | serial bytes 2D 5B 61 99 read as 2573294381 |
| `Values.FnAscii` | proxymodules/deye.py:18-20 | `fnascii` succeeds exactly when the slice is ASCII; its character codes are the slice byte for byte, with no trimming, so its length is `l` in bounds |
| `Values.AsciiExample` | proxymodules/deye.py:18-20 | the bytes of "DEYE12345" read back as "DEYE12345" |
| `Values.Decimal` | proxymodules/deye.py:23 | `str(n)` is a non-empty digit string that starts with `0` only for 0; one digit exactly below 10, at most two below 100 |
| `Values.ZeroPad2` | proxymodules/deye.py:23 | `{n:02d}` is a digit string of at least two digits, exactly two below 100, with a leading `0` exactly below 10 |
| `Values.ParseDecimalOfDecimal` | proxymodules/deye.py:23 | the decimal text of `n` reads back as `n` |
| `Values.DecimalOfParseDecimal` | proxymodules/deye.py:23 | a digit string without a leading zero is the decimal text of the value it reads as, so `str(n)` is the only such rendering of `n` |
| `Values.ParseZeroPad2` | proxymodules/deye.py:23 | the zero-padded text of `n` reads back as `n` |
| `Values.FnDT` | proxymodules/deye.py:22-23 | `fnDT` succeeds exactly when `a + 4` is inside the buffer, and raises `IndexError` otherwise |
| `Values.FnDTRoundTrip` | proxymodules/deye.py:23 | the rendering is accepted by the strict parser and reads back as year `buf[a] + 2000`, month, day, hour and minute `buf[a+1..a+4]`, and a sixth component equal to the hour `buf[a+3]` |
| `Values.ParseDateTimeCanonical` | proxymodules/deye.py:23 | the parser accepts only the canonical text: a year as `str` writes it and five components as `:02d` writes them, so the round trip fixes the rendered text, padding included |
| `Values.ZeroPad2OfParseDecimal` | proxymodules/deye.py:23 | a string of at least two digits, with a leading zero only when exactly two, is `{n:02d}` of the value it reads as |
| `Values.FnDTReadsFiveBytes` | proxymodules/deye.py:22-23 | `fnDT` depends only on `buf[a..a+5)`: `buf[a + 5]`, later bytes and the length argument never affect it |
| `Values.DateTimeExample` | proxymodules/deye.py:23 | bytes 24 3 15 14 30 14 render as "2024-03-15:14:30:14" |
| `Schema.Divisor.Value` | proxymodules/deye.py:9-16 | a scaled decoder divides by 10, 100 or 1000 only |
| `Schema.EvalField` | proxymodules/deye.py:114 | one table entry raises exactly when its text is not ASCII or its date-time is out of range; integer entries give numbers, scaled entries fixed-point values, text and date-time entries text |
| `Schema.EvalFieldValue` | proxymodules/deye.py:114 | a decoded integer entry is `fn1` at its `adr` and `len` and below `256^len`; a scaled entry times its divisor is that `fn1`; text entries are exactly what `fnascii` or `fnDT` return there |
| `Schema.EvalPrefix` | proxymodules/deye.py:113-114 | the loop over the first `n` entries completes exactly when each of them decodes |
| `Schema.EvalPrefixKeys` | proxymodules/deye.py:113-114 | a completed loop over the first `n` entries has exactly their names as keys |
| `Schema.EvalPrefixStep` | proxymodules/deye.py:113-114 | one more iteration either raises the entry's exception or stores its value under its name, keeping the earlier keys |
| `Schema.EvalPrefixValues` | proxymodules/deye.py:113-114 | with distinct names, each entry's key maps to exactly its decoder's value |
| `Schema.EvalPrefixFirstFailure` | proxymodules/deye.py:113-114 | a failing loop raises the exception of the first entry that does not decode |
| `Schema.Dfn42DistinctNames` | proxymodules/deye.py:32-93 | the 22 field names of the table are pairwise distinct |
| `Schema.Dfn42Shape` | proxymodules/deye.py:32-93 | the table has 22 entries, every `adr + len` is at most 251, and its only date-time entry is `meta.current_time` at 245 with width 6 |
| `Schema.Dfn42RaisingEntries` | proxymodules/deye.py:32-93 | only the serial number, the date-time and the three version strings can raise; all others are integer or scaled |
| `Schema.Dfn42SlicesWhole` | proxymodules/deye.py:32-93 | a payload of at least 251 bytes holds every field at full width |
| `Schema.Dfn42RaisingConditions` | proxymodules/deye.py:32-93 | those five entries decode exactly when the payload has at least 250 bytes and the four text slices are ASCII |
| `Schema.Dfn42OthersDecode` | proxymodules/deye.py:32-93 | when those five decode, every entry decodes |
| `Schema.Dfn42Decodes` | proxymodules/deye.py:112-114 | the whole table evaluates without exception exactly when the payload has at least 250 bytes and the four text fields are ASCII |
| `Schema.Dfn42Result` | proxymodules/deye.py:112-114 | a completed evaluation has exactly the table's 22 names as keys, each mapped to its decoder at its `adr` and `len` |
| `Deye.Classify` | proxymodules/deye.py:101-135 | classification raises exactly for type 0x42 with a payload under 2 bytes; only type 0x42 is a data request; every kind stands for exactly the type it was given (0x41 handshake request, 0x43 wifi info request, 0x47 heartbeat request, 0x11 handshake, 0x12 data, 0x13 wifi info and 0x17 heartbeat responses), and an unknown type keeps its raw byte and is none of the eight known ones |
| `Deye.MicroinverterIffSchemaByte` | proxymodules/deye.py:104-112 | the table is chosen exactly for type 0x42 with `payload[1] == 0x08` |
| `Deye.OtherSchemasClassified` | proxymodules/deye.py:111-121 | schema bytes 0x11, 0x13 and unknown values are classified with an empty `res`, never rejected |
| `Deye.OtherTypesIgnorePayload` | proxymodules/deye.py:101-135 | every type but 0x42 never raises, leaves `res` empty and does not depend on the payload |
| `Deye.FieldsOnlyForMicroinverter` | proxymodules/deye.py:99-135 | after a successful decode, `res` is non-empty exactly for type 0x42 with schema byte 0x08 |
| `Deye.MicroinverterResult` | proxymodules/deye.py:112-114 | a microinverter request decodes exactly when the payload has at least 250 bytes and ASCII text fields; `res` then has exactly the 22 table keys with their decoded values |
| `Deye.ParseEnvelope` | proxymodules/deye.py:137-151 | splitting raises exactly below 7 bytes; the payload is `pkg[11..|pkg|-2)` with length `|pkg| - 13` from 13 bytes on and empty below; the footer is checksum `pkg[|pkg|-2]` and magic `pkg[|pkg|-1]`; the serial fits 32 bits and the declared length 16 bits |
| `Deye.HeaderFields` | proxymodules/deye.py:140-146 | for every frame of at least 7 bytes, the magic, type and id bytes are `pkg[0]`, `pkg[4]`, `pkg[5]`, `pkg[6]` and the declared length is `pkg[1] + 256 pkg[2]`; the serial is `pkg[7..11)` least significant first, or the little-endian value of the bytes from offset 7 on when the frame is shorter than 11 bytes |
| `Deye.EnvelopeRoundTrip` | proxymodules/deye.py:138-151 | splitting a laid-out frame gives back its header, payload and footer, whatever length the header declares |
| `Deye.FooterIgnored` | proxymodules/deye.py:147-152 | for a frame of at least 13 bytes, the checksum and footer magic change neither header, payload nor decoded result (in shorter frames they are header bytes) |
| `Deye.Module.constructor` | proxymodules/deye.py:27 | a new module has `loggerSerial` 0 |
| `Deye.Module.DecodePayload` | proxymodules/deye.py:99-135 | returns exactly the classification and map of the decode specification, or the exception classification or the table raises |
| `Deye.Module.FillFields` | proxymodules/deye.py:112-114 | the loop fills `res` in table order and ends with exactly the evaluation of the whole table, or the exception of its first failing entry |
| `Deye.Module.DecodePacket` | proxymodules/deye.py:137-152 | returns the split frame and its decoded payload. It sets `loggerSerial` to the little-endian `pkg[7..11)` whenever the frame has at least 7 bytes, even if the payload then raises; otherwise `loggerSerial` is unchanged |
| `Deye.Module.Execute` | proxymodules/deye.py:157-176 | returns the input bytes unchanged exactly when decoding succeeds, and propagates the decoding exception otherwise |

## Left out

- Printing: the `print` calls and `json.dumps` in `decode_payload` and `decode_packet` are diagnostic output. Classification is a `MessageKind` value instead, and the result map is returned rather than printed.
- The hex dump in `execute`: it is a string literal that is never executed, and it is display formatting.
- Configuration and plumbing: the `length` option, `help()`, `incoming`, the module `name` taken from the file path and `description`. None of them take part in decoding.
- Floating point: `fn10`, `fn100` and `fn1000` are exact reals. IEEE rounding of `/ 10.0` and the like is not modelled.
- Values.FnAscii: the model decodes ASCII bytes only and reports any byte of 0x80 or above as `NonAsciiText`. The source decodes valid multi-byte UTF-8 and raises `UnicodeDecodeError` only on invalid sequences. A full UTF-8 decoder is not part of this model.
- Key order of `res`: the source's dictionary keeps its keys in table order, and only the `json.dumps` output shows that order. The model's `map` has no order; `FillFields` inserts in table order, but nothing about order survives in its result.
- The commented-out table entries: they are not executed.
- Negative offsets and lengths: Python slicing and indexing with negative values are not modelled. Every offset the code uses is non-negative, apart from three. The footer's `pkg[-1]` and `pkg[-2]` are written as `pkg[|pkg| - 1]` and `pkg[|pkg| - 2]`. The payload slice `pkg[11:-2]` has the negative end bound `-2`, written as `|pkg| - FooterLen`; when that end is not past offset 11, the slice is empty.
- The host that calls `execute` (the proxy chain and its transport): it is not part of this model. Buffers are immutable `bytes`, so they are modelled as sequences. That decoding does not change its input is therefore a property of the types, not a separate lemma.

=== FILE: bytes.dfy ===
/** Byte buffers as the decoder sees them: Python-style truncating slices and
    unsigned little-endian integers (`int.from_bytes(..., byteorder='little')`). */
module Bytes {

  /** One octet of a frame. */
  type Byte = b: int | 0 <= b < 256

  function Min(x: int, y: int): int { if x <= y then x else y }

  /** `buf[a:a + l]` for non-negative `a` and `l`: Python clamps both bounds to
      the length of the buffer, so a slice that runs off the end is shorter,
      never an error. */
  function Slice(buf: seq<Byte>, a: nat, l: nat): (s: seq<Byte>)
    ensures |s| == if a >= |buf| then 0 else Min(l, |buf| - a)
    ensures forall i :: 0 <= i < |s| ==> s[i] == buf[a + i]
    ensures a + l <= |buf| ==> |s| == l
  {
    buf[Min(a, |buf|)..Min(a + l, |buf|)]
  }

  /** 256 to the power n. */
  function Pow256(n: nat): (p: nat)
    ensures p >= 1
  {
    if n == 0 then 1 else 256 * Pow256(n - 1)
  }

  lemma {:induction false} Pow256Monotone(m: nat, n: nat)
    requires m <= n
    ensures Pow256(m) <= Pow256(n)
  {
    if m < n {
      Pow256Monotone(m, n - 1);
    }
  }

  /** The unsigned little-endian integer held by `s`: `s[0]` is the least
      significant byte. */
  function LittleEndian(s: seq<Byte>): (v: nat)
    ensures v < Pow256(|s|)
  {
    if s == [] then 0 else s[0] + 256 * LittleEndian(s[1..])
  }

  /** Reference definition: the sum of `s[i] * 256^i` over `i` in `[0, n)`,
      accumulated from the least significant byte upwards. */
  function WeightedSum(s: seq<Byte>, n: nat): nat
    requires n <= |s|
  {
    if n == 0 then 0 else WeightedSum(s, n - 1) + s[n - 1] * Pow256(n - 1)
  }

  /** Appending a byte adds it at the next higher weight. */
  lemma {:induction false} LittleEndianAppend(s: seq<Byte>, b: Byte)
    ensures LittleEndian(s + [b]) == LittleEndian(s) + b * Pow256(|s|)
  {
    if s == [] {
      assert [b][1..] == [];
    } else {
      var t, p := s + [b], Pow256(|s| - 1);
      assert t[0] == s[0] && t[1..] == s[1..] + [b];
      LittleEndianAppend(s[1..], b);
      ShiftWeight(s[0], LittleEndian(s[1..]), b, p);
    }
  }

  /** The arithmetic step of `LittleEndianAppend`, kept apart from the
      sequence reasoning. */
  lemma ShiftWeight(c: int, x: int, b: int, p: int)
    ensures c + 256 * (x + b * p) == (c + 256 * x) + b * (256 * p)
  {
  }

  /** `LittleEndian` agrees with the positional sum on every prefix. */
  lemma {:induction false} LittleEndianIsWeightedSum(s: seq<Byte>, n: nat)
    requires n <= |s|
    ensures LittleEndian(s[..n]) == WeightedSum(s, n)
  {
    if n == 0 {
      assert s[..0] == [];
    } else {
      assert s[..n] == s[..n - 1] + [s[n - 1]];
      LittleEndianAppend(s[..n - 1], s[n - 1]);
      LittleEndianIsWeightedSum(s, n - 1);
    }
  }

  /** The `n`-byte little-endian encoding of `v` (the lowest `n` bytes of it). */
  function LittleEndianBytes(v: nat, n: nat): (s: seq<Byte>)
    ensures |s| == n
  {
    if n == 0 then [] else [v % 256] + LittleEndianBytes(v / 256, n - 1)
  }

  /** Decoding an encoding gives the value back when it fits in `n` bytes. */
  lemma {:induction false} LittleEndianOfBytes(v: nat, n: nat)
    requires v < Pow256(n)
    ensures LittleEndian(LittleEndianBytes(v, n)) == v
  {
    if n > 0 {
      var s := LittleEndianBytes(v, n);
      assert s[1..] == LittleEndianBytes(v / 256, n - 1);
      LittleEndianOfBytes(v / 256, n - 1);
    }
  }

  /** Encoding a decoded buffer at its own width gives the buffer back, so
      two buffers of one width decode equally only if they are equal. */
  lemma {:induction false} BytesOfLittleEndian(s: seq<Byte>)
    ensures LittleEndianBytes(LittleEndian(s), |s|) == s
  {
    if s != [] {
      var v := LittleEndian(s);
      assert v % 256 == s[0];
      assert v / 256 == LittleEndian(s[1..]);
      BytesOfLittleEndian(s[1..]);
    }
  }
}

=== FILE: deye.dfy ===
/** The Deye logger frame decoder: the 11-byte header, the payload and the
    2-byte footer of a frame, the classification of a payload by message type
    and schema byte, and the evaluation of the microinverter table. */
module Deye {
  import opened Bytes
  import opened Values
  import opened Schema

  /** The device family a data request announces in `payload[1]`. */
  datatype DataSchema = Microinverter | HybridInverter | RelayModule | UnknownSchema(discriminator: Byte)

  /** What a frame is, by its message type. */
  datatype MessageKind =
    | HandshakeRequest
    | DataRequest(schema: DataSchema)
    | WifiInfoRequest
    | HeartbeatRequest
    | HandshakeResponse
    | DataResponse
    | WifiInfoResponse
    | HeartbeatResponse
    | UnknownMessage(mesgType: Byte)

  /** The classification of a payload and the field map `res` built for it. */
  datatype Decoded = Decoded(kind: MessageKind, res: map<string, Value>)

  datatype Header = Header(magic: Byte, payloadLength: nat, unknown1: Byte, mesgType: Byte,
                           msgIdResponse: Byte, msgIdRequest: Byte, loggerSerial: nat)

  datatype Footer = Footer(checksum: Byte, magic: Byte)

  /** A frame split into its three parts. */
  datatype Envelope = Envelope(header: Header, payload: seq<Byte>, footer: Footer)

  /** A frame and what its payload decodes to. */
  datatype Frame = Frame(envelope: Envelope, decoded: Decoded)

  const HeaderLen: nat := 11
  const FooterLen: nat := 2

  /** The message type each kind stands for: the inverse of the type
      dispatch in `Classify`. */
  function TypeOf(k: MessageKind): Byte
  {
    match k
    case HandshakeRequest => 0x41
    case DataRequest(_) => 0x42
    case WifiInfoRequest => 0x43
    case HeartbeatRequest => 0x47
    case HandshakeResponse => 0x11
    case DataResponse => 0x12
    case WifiInfoResponse => 0x13
    case HeartbeatResponse => 0x17
    case UnknownMessage(t) => t
  }

  // ---------------------------------------------------------------- payload

  /** The `match` of `decode_payload`: message type first, then, for a data
      request only, the schema byte `payload[1]`, which raises when the
      payload is shorter than two bytes. */
  function Classify(mesgType: Byte, payload: seq<Byte>): (r: Outcome<MessageKind>)
    ensures r.Raised? <==> mesgType == 0x42 && |payload| < 2
    ensures r.Raised? ==> r.error == IndexError
    ensures r.Ok? ==> (r.value.DataRequest? <==> mesgType == 0x42)
    ensures r.Ok? ==> TypeOf(r.value) == mesgType
    ensures r.Ok? && r.value.UnknownMessage? ==>
              mesgType !in {0x11, 0x12, 0x13, 0x17, 0x41, 0x42, 0x43, 0x47}
  {
    match mesgType
    case 0x41 => Ok(HandshakeRequest)
    case 0x42 =>
      if |payload| < 2 then Raised(IndexError)
      else
        Ok(DataRequest(match payload[1]
                       case 0x08 => Microinverter
                       case 0x11 => HybridInverter
                       case 0x13 => RelayModule
                       case _ => UnknownSchema(payload[1])))
    case 0x43 => Ok(WifiInfoRequest)
    case 0x47 => Ok(HeartbeatRequest)
    case 0x11 => Ok(HandshakeResponse)
    case 0x12 => Ok(DataResponse)
    case 0x13 => Ok(WifiInfoResponse)
    case 0x17 => Ok(HeartbeatResponse)
    case _ => Ok(UnknownMessage(mesgType))
  }

  /** What `decode_payload` computes: only a microinverter data request
      evaluates the table; every other kind leaves `res` empty. */
  function DecodePayloadSpec(mesgType: Byte, payload: seq<Byte>): Outcome<Decoded>
  {
    match Classify(mesgType, payload)
    case Raised(e) => Raised(e)
    case Ok(kind) =>
      if kind == DataRequest(Microinverter) then
        match EvalPrefix(Dfn42, |Dfn42|, payload)
        case Raised(e) => Raised(e)
        case Ok(res) => Ok(Decoded(kind, res))
      else
        Ok(Decoded(kind, map[]))
  }

  /** The table is evaluated exactly for message type 0x42 with schema byte 0x08. */
  lemma MicroinverterIffSchemaByte(mesgType: Byte, payload: seq<Byte>)
    ensures Classify(mesgType, payload) == Ok(DataRequest(Microinverter))
        <==> mesgType == 0x42 && |payload| >= 2 && payload[1] == 0x08
  {
  }

  /** The schema bytes 0x11 and 0x13 and every unknown one are classified,
      not rejected. */
  lemma OtherSchemasClassified(payload: seq<Byte>)
    requires |payload| >= 2 && payload[1] != 0x08
    ensures DecodePayloadSpec(0x42, payload).Ok?
    ensures DecodePayloadSpec(0x42, payload).value.res == map[]
    ensures DecodePayloadSpec(0x42, payload).value.kind
         == DataRequest(if payload[1] == 0x11 then HybridInverter
                        else if payload[1] == 0x13 then RelayModule
                        else UnknownSchema(payload[1]))
  {
  }

  /** Every message type but 0x42 is classified without reading the payload:
      it never raises, `res` stays empty, and the payload does not matter. */
  lemma OtherTypesIgnorePayload(mesgType: Byte, payload: seq<Byte>, other: seq<Byte>)
    requires mesgType != 0x42
    ensures DecodePayloadSpec(mesgType, payload).Ok?
    ensures DecodePayloadSpec(mesgType, payload).value.res == map[]
    ensures DecodePayloadSpec(mesgType, payload) == DecodePayloadSpec(mesgType, other)
  {
  }

  /** `res` is non-empty exactly for a decoded microinverter data request. */
  lemma FieldsOnlyForMicroinverter(mesgType: Byte, payload: seq<Byte>)
    requires DecodePayloadSpec(mesgType, payload).Ok?
    ensures DecodePayloadSpec(mesgType, payload).value.res != map[]
        <==> mesgType == 0x42 && payload[1] == 0x08
  {
    var d := DecodePayloadSpec(mesgType, payload).value;
    if mesgType == 0x42 && payload[1] == 0x08 {
      Dfn42Result(payload);
      assert Dfn42[0].name in d.res;
    }
  }

  /** A microinverter data request decodes exactly when the date-time read is
      in range and the text fields are ASCII; it then holds exactly the 22
      table keys, each with its entry's decoder applied at its offset and
      width. */
  lemma MicroinverterResult(payload: seq<Byte>)
    requires |payload| >= 2 && payload[1] == 0x08
    ensures DecodePayloadSpec(0x42, payload).Ok? <==>
              |payload| >= 250
              && IsAscii(Slice(payload, 21, 10))
              && IsAscii(Slice(payload, 101, 8))
              && IsAscii(Slice(payload, 109, 8))
              && IsAscii(Slice(payload, 117, 8))
    ensures DecodePayloadSpec(0x42, payload).Ok? ==>
              var res := DecodePayloadSpec(0x42, payload).value.res;
              && res.Keys == Names(Dfn42)
              && |res| == 22
              && forall i :: 0 <= i < |Dfn42| ==> Ok(res[Dfn42[i].name]) == EvalField(Dfn42[i], payload)
  {
    Dfn42Decodes(payload);
    if DecodePayloadSpec(0x42, payload).Ok? {
      Dfn42Result(payload);
      var res := DecodePayloadSpec(0x42, payload).value.res;
      assert |res| == |res.Keys|;
    }
  }

  // ---------------------------------------------------------------- envelope

  /** The header, payload and footer of `decode_packet`. Indexing `pkg[0]` to
      `pkg[6]` raises on a frame shorter than 7 bytes; the two length fields
      are truncating slices, and the payload `pkg[11:-2]` is empty when the
      frame has no more than 13 bytes. */
  function ParseEnvelope(pkg: seq<Byte>): (r: Outcome<Envelope>)
    ensures r.Raised? <==> |pkg| < 7
    ensures r.Raised? ==> r.error == IndexError
    ensures r.Ok? ==> |r.value.payload| == if |pkg| >= 13 then |pkg| - 13 else 0
    ensures r.Ok? && |pkg| >= 13 ==> r.value.payload == pkg[HeaderLen..|pkg| - FooterLen]
    ensures r.Ok? ==> r.value.header.loggerSerial < 0x1_0000_0000 && r.value.header.payloadLength < 0x1_0000
    ensures r.Ok? ==> r.value.footer == Footer(pkg[|pkg| - 2], pkg[|pkg| - 1])
  {
    if |pkg| < 7 then Raised(IndexError)
    else
      var header := Header(pkg[0], LittleEndian(Slice(pkg, 1, 2)), pkg[3], pkg[4], pkg[5], pkg[6],
                           LittleEndian(Slice(pkg, 7, 4)));
      var payload := if |pkg| - FooterLen > HeaderLen then pkg[HeaderLen..|pkg| - FooterLen] else [];
      Pow256Monotone(|Slice(pkg, 1, 2)|, 2);
      Pow256Monotone(|Slice(pkg, 7, 4)|, 4);
      Ok(Envelope(header, payload, Footer(pkg[|pkg| - 2], pkg[|pkg| - 1])))
  }

  /** The header fields sit at fixed offsets: magic `pkg[0]`, declared length
      `pkg[1] + 256 * pkg[2]`, message type `pkg[4]`, response id `pkg[5]`,
      request id `pkg[6]`, and the logger serial in `pkg[7..11]`, least
      significant byte first. All of them are read from any frame of at least
      7 bytes; a frame shorter than 11 bytes gives a serial of the bytes it
      has from offset 7 on. */
  lemma HeaderFields(pkg: seq<Byte>)
    requires |pkg| >= 7
    ensures ParseEnvelope(pkg).Ok?
    ensures var h := ParseEnvelope(pkg).value.header;
            && h.magic == pkg[0] && h.unknown1 == pkg[3] && h.mesgType == pkg[4]
            && h.msgIdResponse == pkg[5] && h.msgIdRequest == pkg[6]
            && h.payloadLength == pkg[1] as int + 256 * pkg[2] as int
    ensures |pkg| >= 11 ==>
              ParseEnvelope(pkg).value.header.loggerSerial
              == pkg[7] as int + 256 * pkg[8] as int + 65536 * pkg[9] as int + 16777216 * pkg[10] as int
    ensures |pkg| < 11 ==> ParseEnvelope(pkg).value.header.loggerSerial == LittleEndian(pkg[7..])
  {
    var len, serial := Slice(pkg, 1, 2), Slice(pkg, 7, 4);
    assert LittleEndian(len[1..]) == pkg[2] by {
      assert len[1..][1..] == [];
    }
    if |pkg| >= 11 {
      var s1, s2, s3 := serial[1..], serial[1..][1..], serial[1..][1..][1..];
      assert LittleEndian(s3) == pkg[10] by {
        assert s3[1..] == [];
      }
      assert LittleEndian(s2) == pkg[9] + 256 * pkg[10] as int;
      assert LittleEndian(s1) == pkg[8] + 256 * (pkg[9] + 256 * pkg[10] as int);
    } else {
      assert serial == pkg[7..];
    }
  }

  /** The wire layout of a frame: magic, 2-byte declared length, a reserved
      byte, message type, response and request ids, 4-byte logger serial,
      payload, checksum, trailing magic. */
  function Serialize(e: Envelope): seq<Byte>
  {
    var h := e.header;
    [h.magic] + LittleEndianBytes(h.payloadLength, 2) + [h.unknown1, h.mesgType, h.msgIdResponse, h.msgIdRequest]
      + LittleEndianBytes(h.loggerSerial, 4) + e.payload + [e.footer.checksum, e.footer.magic]
  }

  /** Parsing a laid-out frame gives back its header, payload and footer,
      whatever length the header declares: that field never bounds the payload. */
  lemma EnvelopeRoundTrip(e: Envelope)
    requires e.header.payloadLength < 0x1_0000 && e.header.loggerSerial < 0x1_0000_0000
    ensures ParseEnvelope(Serialize(e)) == Ok(e)
  {
    var h := e.header;
    var pkg := Serialize(e);
    var len, serial := LittleEndianBytes(h.payloadLength, 2), LittleEndianBytes(h.loggerSerial, 4);
    assert Pow256(2) == 0x1_0000 && Pow256(4) == 0x1_0000_0000;
    LittleEndianOfBytes(h.payloadLength, 2);
    LittleEndianOfBytes(h.loggerSerial, 4);
    assert |pkg| == 13 + |e.payload|;
    assert Slice(pkg, 1, 2) == len;
    assert Slice(pkg, 7, 4) == serial;
    assert pkg[0] == h.magic && pkg[3] == h.unknown1 && pkg[4] == h.mesgType;
    assert pkg[5] == h.msgIdResponse && pkg[6] == h.msgIdRequest;
    assert pkg[HeaderLen..|pkg| - FooterLen] == e.payload;
  }

  /** The checksum and trailing magic bytes change neither the header nor the
      payload of a frame of at least 13 bytes, so not what it decodes to:
      the checksum is never verified. */
  lemma FooterIgnored(pkg: seq<Byte>, other: seq<Byte>)
    requires |pkg| == |other| >= 13
    requires pkg[..|pkg| - FooterLen] == other[..|other| - FooterLen]
    ensures ParseEnvelope(pkg).value.header == ParseEnvelope(other).value.header
    ensures ParseEnvelope(pkg).value.payload == ParseEnvelope(other).value.payload
    ensures DecodePacketSpec(pkg).Ok? == DecodePacketSpec(other).Ok?
    ensures DecodePacketSpec(pkg).Raised? ==> DecodePacketSpec(pkg).error == DecodePacketSpec(other).error
    ensures DecodePacketSpec(pkg).Ok? ==> DecodePacketSpec(pkg).value.decoded == DecodePacketSpec(other).value.decoded
  {
    var n := |pkg| - FooterLen;
    assert forall i :: 0 <= i < n ==> pkg[i] == pkg[..n][i] == other[i];
    assert Slice(pkg, 1, 2) == Slice(other, 1, 2);
    assert Slice(pkg, 7, 4) == Slice(other, 7, 4);
    assert pkg[HeaderLen..n] == other[HeaderLen..n];
  }

  /** What `decode_packet` computes. */
  function DecodePacketSpec(pkg: seq<Byte>): Outcome<Frame>
  {
    match ParseEnvelope(pkg)
    case Raised(e) => Raised(e)
    case Ok(env) =>
      match DecodePayloadSpec(env.header.mesgType, env.payload)
      case Raised(e) => Raised(e)
      case Ok(d) => Ok(Frame(env, d))
  }

  // ---------------------------------------------------------------- the module object

  /** The proxy module. Its only state that decoding changes is the serial
      number of the last logger seen. */
  class Module {
    var loggerSerial: nat

    constructor ()
      ensures loggerSerial == 0
    {
      loggerSerial := 0;
    }

    /** `decode_payload`: classify, and for a microinverter data request fill
        `res` from the table. */
    method DecodePayload(mesgType: Byte, payload: seq<Byte>) returns (r: Outcome<Decoded>)
      ensures r == DecodePayloadSpec(mesgType, payload)
    {
      var kind := Classify(mesgType, payload);
      if kind.Raised? {
        return Raised(kind.error);
      }
      if kind.value != DataRequest(Microinverter) {
        return Ok(Decoded(kind.value, map[]));
      }
      var res := FillFields(payload);
      if res.Raised? {
        return Raised(res.error);
      }
      r := Ok(Decoded(kind.value, res.value));
    }

    /** The `for` loop of `decode_payload`: store each entry's decoded value
        under its name, in table order; the first entry that raises ends the
        loop and the partial map is lost. */
    method FillFields(payload: seq<Byte>) returns (r: Outcome<map<string, Value>>)
      ensures r == EvalPrefix(Dfn42, |Dfn42|, payload)
    {
      var res: map<string, Value> := map[];
      var i := 0;
      while i < |Dfn42|
        invariant 0 <= i <= |Dfn42|
        invariant EvalPrefix(Dfn42, i, payload) == Ok(res)
      {
        var f := Dfn42[i];
        var v := EvalField(f, payload);
        EvalPrefixStep(Dfn42, i, payload, res);
        if v.Raised? {
          EvalPrefixFirstFailure(Dfn42, |Dfn42|, payload, i);
          return Raised(v.error);
        }
        res := res[f.name := v.value];
        i := i + 1;
      }
      r := Ok(res);
    }

    /** `decode_packet`: split the frame, remember the logger serial, decode
        the payload. The serial is stored before the payload is decoded, so
        it is updated even when decoding the payload raises. */
    method DecodePacket(pkg: seq<Byte>) returns (r: Outcome<Frame>)
      modifies this
      ensures r == DecodePacketSpec(pkg)
      ensures loggerSerial == if |pkg| >= 7 then LittleEndian(Slice(pkg, 7, 4)) else old(loggerSerial)
      ensures r.Ok? ==> loggerSerial == r.value.envelope.header.loggerSerial
    {
      if |pkg| < 7 {
        return Raised(IndexError);
      }
      var env := ParseEnvelope(pkg);
      loggerSerial := env.value.header.loggerSerial;
      var decoded := DecodePayload(env.value.header.mesgType, env.value.payload);
      if decoded.Raised? {
        return Raised(decoded.error);
      }
      r := Ok(Frame(env.value, decoded.value));
    }

    /** `execute`: decode the frame and hand the same bytes back unchanged;
        an exception while decoding propagates instead. */
    method Execute(data: seq<Byte>) returns (r: Outcome<seq<Byte>>)
      modifies this
      ensures r.Ok? <==> DecodePacketSpec(data).Ok?
      ensures r.Ok? ==> r.value == data
      ensures r.Raised? ==> r.error == DecodePacketSpec(data).error
      ensures loggerSerial == if |data| >= 7 then LittleEndian(Slice(data, 7, 4)) else old(loggerSerial)
    {
      var frame := DecodePacket(data);
      if frame.Raised? {
        return Raised(frame.error);
      }
      r := Ok(data);
    }
  }
}

=== FILE: schema.dfy ===
/** The declarative field table `dfn42` of the Deye module and its
    evaluation over a payload. Each entry names a field, the payload offset
    and width it occupies, and the decoder applied to those bytes. */
module Schema {
  import opened Bytes
  import opened Values

  /** The power of ten a scaled field is divided by. */
  datatype Divisor = Ten | Hundred | Thousand
  {
    function Value(): (k: nat)
      ensures k == 10 || k == 100 || k == 1000
    {
      match this
      case Ten => 10
      case Hundred => 100
      case Thousand => 1000
    }
  }

  /** Which of `fn1`, `fn10`/`fn100`/`fn1000`, `fnascii`, `fnDT` an entry uses. */
  datatype Decoder = Integer | Scaled(divisor: Divisor) | Ascii | DateTime

  /** One table entry: `name -> {'adr': adr, 'len': len, 'f': decoder}`. */
  datatype FieldSpec = FieldSpec(name: string, adr: nat, len: nat, decoder: Decoder)

  /** The microinverter table, in the order the source declares it. */
  const Dfn42: seq<FieldSpec> := [
    FieldSpec("inv.serial.ascii", 21, 10, Ascii),
    FieldSpec("pv.v.1", 85, 2, Scaled(Ten)),
    FieldSpec("pv.i.1", 87, 2, Scaled(Ten)),
    FieldSpec("pv.kWh_today.1", 136, 2, Scaled(Ten)),
    FieldSpec("pv.kWh_total.1", 145, 2, Scaled(Ten)),
    FieldSpec("pv.v.2", 89, 2, Scaled(Ten)),
    FieldSpec("pv.i.2", 91, 2, Scaled(Ten)),
    FieldSpec("pv.kWh_today.2", 138, 2, Scaled(Ten)),
    FieldSpec("pv.kWh_total.2", 149, 2, Scaled(Ten)),
    FieldSpec("grid.active_power_w", 59, 4, Integer),
    FieldSpec("grid.kWh_today", 33, 4, Scaled(Hundred)),
    FieldSpec("grid.kWh_total", 37, 4, Scaled(Ten)),
    FieldSpec("grid.v", 45, 2, Scaled(Ten)),
    FieldSpec("grid.i", 51, 2, Scaled(Ten)),
    FieldSpec("grid.hz", 57, 2, Scaled(Hundred)),
    FieldSpec("inv.degc", 63, 2, Scaled(Hundred)),
    FieldSpec("meta.mppt_count", 131, 1, Integer),
    FieldSpec("meta.phases", 132, 1, Integer),
    FieldSpec("meta.current_time", 245, 6, DateTime),
    FieldSpec("meta.protocol_ver", 101, 8, Ascii),
    FieldSpec("meta.dc_master_fw_ver", 109, 8, Ascii),
    FieldSpec("meta.ac_fw_ver", 117, 8, Ascii)
  ]

  /** The field names of a table. */
  function Names(table: seq<FieldSpec>): set<string>
  {
    set i | 0 <= i < |table| :: table[i].name
  }

  predicate DistinctNames(table: seq<FieldSpec>)
  {
    forall i, j :: 0 <= i < j < |table| ==> table[i].name != table[j].name
  }

  /** Whether decoding `f` over `payload` completes without an exception:
      the integer decoders never raise (their slices truncate), text must be
      ASCII, and the date-time decoder indexes up to `adr + 4`. */
  predicate Decodes(f: FieldSpec, payload: seq<Byte>)
  {
    match f.decoder
    case Integer => true
    case Scaled(_) => true
    case Ascii => IsAscii(Slice(payload, f.adr, f.len))
    case DateTime => f.adr + 4 < |payload|
  }

  /** `f(payload, adr, len)` for the entry's decoder `f`. */
  function EvalField(f: FieldSpec, payload: seq<Byte>): (r: Outcome<Value>)
    ensures r.Ok? <==> Decodes(f, payload)
    ensures r.Ok? && f.decoder.Integer? ==> r.value.Num?
    ensures r.Ok? && f.decoder.Scaled? ==> r.value.Fixed?
    ensures r.Ok? && (f.decoder.Ascii? || f.decoder.DateTime?) ==> r.value.Text?
  {
    match f.decoder
    case Integer => Ok(Num(Fn1(payload, f.adr, f.len)))
    case Scaled(d) =>
      Ok(Fixed(match d
               case Ten => Fn10(payload, f.adr, f.len)
               case Hundred => Fn100(payload, f.adr, f.len)
               case Thousand => Fn1000(payload, f.adr, f.len)))
    case Ascii =>
      (match FnAscii(payload, f.adr, f.len)
       case Ok(s) => Ok(Text(s))
       case Raised(e) => Raised(e))
    case DateTime =>
      (match FnDT(payload, f.adr, f.len)
       case Ok(s) => Ok(Text(s))
       case Raised(e) => Raised(e))
  }

  /** What a decoded entry holds: an integer entry is below `256^len`, a
      scaled entry times its divisor is the integer `fn1` reads at the same
      place, and a text entry is exactly what its text decoder returns. */
  lemma EvalFieldValue(f: FieldSpec, payload: seq<Byte>)
    requires EvalField(f, payload).Ok?
    ensures f.decoder.Integer? ==> EvalField(f, payload).value == Num(Fn1(payload, f.adr, f.len))
    ensures f.decoder.Integer? ==> EvalField(f, payload).value.n < Pow256(f.len)
    ensures f.decoder.Scaled? ==>
      EvalField(f, payload).value.x * f.decoder.divisor.Value() as real == Fn1(payload, f.adr, f.len) as real
    ensures f.decoder.Ascii? ==> FnAscii(payload, f.adr, f.len) == Ok(EvalField(f, payload).value.s)
    ensures f.decoder.DateTime? ==> FnDT(payload, f.adr, f.len) == Ok(EvalField(f, payload).value.s)
  {
  }

  /** The result map after the first `n` entries of the table have been
      stored under their names, or the exception raised by the first entry
      that fails. */
  function EvalPrefix(table: seq<FieldSpec>, n: nat, payload: seq<Byte>): (r: Outcome<map<string, Value>>)
    requires n <= |table|
    ensures r.Ok? <==> forall i :: 0 <= i < n ==> Decodes(table[i], payload)
  {
    if n == 0 then Ok(map[])
    else
      match EvalPrefix(table, n - 1, payload)
      case Raised(e) => Raised(e)
      case Ok(res) =>
        match EvalField(table[n - 1], payload)
        case Raised(e) => Raised(e)
        case Ok(v) => Ok(res[table[n - 1].name := v])
  }

  /** A successful evaluation of the first `n` entries has exactly their
      names as keys. */
  lemma {:induction false} EvalPrefixKeys(table: seq<FieldSpec>, n: nat, payload: seq<Byte>)
    requires n <= |table|
    requires EvalPrefix(table, n, payload).Ok?
    ensures EvalPrefix(table, n, payload).value.Keys == Names(table[..n])
  {
    if n > 0 {
      EvalPrefixKeys(table, n - 1, payload);
      NamesOfPrefix(table, n);
    }
  }

  lemma NamesOfPrefix(table: seq<FieldSpec>, n: nat)
    requires 0 < n <= |table|
    ensures Names(table[..n]) == Names(table[..n - 1]) + {table[n - 1].name}
  {
    assert table[..n] == table[..n - 1] + [table[n - 1]];
  }

  /** One iteration of the table loop: the next entry either raises, ending
      the evaluation with its error, or adds its value under its name. */
  lemma EvalPrefixStep(table: seq<FieldSpec>, n: nat, payload: seq<Byte>, res: map<string, Value>)
    requires n < |table|
    requires EvalPrefix(table, n, payload) == Ok(res)
    ensures EvalField(table[n], payload).Raised? ==>
      EvalPrefix(table, n + 1, payload) == Raised(EvalField(table[n], payload).error)
    ensures EvalField(table[n], payload).Ok? ==>
      EvalPrefix(table, n + 1, payload) == Ok(res[table[n].name := EvalField(table[n], payload).value])
  {
  }

  /** With distinct names, each entry's key holds exactly what its decoder gives. */
  lemma {:induction false} EvalPrefixValues(table: seq<FieldSpec>, n: nat, payload: seq<Byte>, i: nat)
    requires n <= |table| && DistinctNames(table) && i < n
    requires EvalPrefix(table, n, payload).Ok?
    ensures table[i].name in EvalPrefix(table, n, payload).value
    ensures Ok(EvalPrefix(table, n, payload).value[table[i].name]) == EvalField(table[i], payload)
  {
    var prev := EvalPrefix(table, n - 1, payload);
    var v := EvalField(table[n - 1], payload);
    assert prev.Ok? && v.Ok?;
    EvalPrefixStep(table, n - 1, payload, prev.value);
    var key, last := table[i].name, table[n - 1].name;
    var m := prev.value[last := v.value];
    assert EvalPrefix(table, n, payload) == Ok(m);
    if i < n - 1 {
      EvalPrefixValues(table, n - 1, payload, i);
      assert key != last;
      assert key in prev.value && Ok(prev.value[key]) == EvalField(table[i], payload);
      assert m[key] == prev.value[key];
    } else {
      assert i == n - 1 && key == last;
    }
  }

  /** The exception of a failed evaluation is the one raised by the first
      entry that does not decode; later entries are not evaluated. */
  lemma {:induction false} EvalPrefixFirstFailure(table: seq<FieldSpec>, n: nat, payload: seq<Byte>, i: nat)
    requires i < n <= |table|
    requires !Decodes(table[i], payload)
    requires forall j :: 0 <= j < i ==> Decodes(table[j], payload)
    ensures EvalPrefix(table, n, payload) == Raised(EvalField(table[i], payload).error)
  {
    if i < n - 1 {
      EvalPrefixFirstFailure(table, n - 1, payload, i);
    }
  }

  // ---------------------------------------------------------------- facts about dfn42

  /** A number that tells the table's names apart, so that their
      distinctness is a comparison of 22 integers rather than of 231 pairs of
      strings: `65536 * length + 256 * (code of the last character) + (code of
      the third character from the end)`. */
  function NameFingerprint(name: string): int
  {
    if |name| < 3 then 0 else |name| * 65536 + name[|name| - 1] as int * 256 + name[|name| - 3] as int
  }

  /** The fingerprints of the names of `Dfn42`, entry by entry; the first is
      `65536 * 16 + 256 * 'i' + 'c'` = 1048576 + 26880 + 99 for
      "inv.serial.ascii". `Dfn42FingerprintsLow` and `Dfn42FingerprintsHigh`
      check every number against its name. */
  const Dfn42Fingerprints: seq<int> := [
    1075555, 405878, 405865, 930169, 930156, 406134, 406121, 930425, 930412, 1275762, 948580,
    945268, 423524, 420196, 490030, 549733, 1012853, 750451, 1140073, 1143414, 1405558, 946806
  ]

  lemma Dfn42FingerprintsLow()
    ensures forall i :: 0 <= i < 11 ==> NameFingerprint(Dfn42[i].name) == Dfn42Fingerprints[i]
  {
  }

  lemma Dfn42FingerprintsHigh()
    ensures forall i :: 11 <= i < |Dfn42| ==> NameFingerprint(Dfn42[i].name) == Dfn42Fingerprints[i]
  {
  }

  lemma Dfn42FingerprintsDistinct()
    ensures forall i, j :: 0 <= i < j < |Dfn42Fingerprints| ==> Dfn42Fingerprints[i] != Dfn42Fingerprints[j]
  {
  }

  /** No two entries share a name (the source's table is a dictionary). */
  lemma Dfn42DistinctNames()
    ensures DistinctNames(Dfn42)
  {
    Dfn42FingerprintsLow();
    Dfn42FingerprintsHigh();
    Dfn42FingerprintsDistinct();
  }

  lemma Dfn42Shape()
    ensures |Dfn42| == 22
    ensures forall i :: 0 <= i < |Dfn42| ==> Dfn42[i].adr + Dfn42[i].len <= 251
    ensures forall i :: 0 <= i < |Dfn42| && Dfn42[i].decoder.DateTime? ==> i == 18
    ensures Dfn42[18] == FieldSpec("meta.current_time", 245, 6, DateTime)
  {
  }

  /** A payload of at least 251 bytes holds every field whole: no slice is cut short. */
  lemma Dfn42SlicesWhole(payload: seq<Byte>, i: nat)
    requires |payload| >= 251 && i < |Dfn42|
    ensures |Slice(payload, Dfn42[i].adr, Dfn42[i].len)| == Dfn42[i].len
  {
    Dfn42Shape();
  }

  /** The only entries that can raise: the serial number (0), the date-time
      (18) and the three version strings (19 to 21). */
  lemma Dfn42RaisingEntries()
    ensures forall i :: 0 <= i < |Dfn42| && i != 0 && i < 18 ==> Dfn42[i].decoder.Integer? || Dfn42[i].decoder.Scaled?
    ensures Dfn42[0] == FieldSpec("inv.serial.ascii", 21, 10, Ascii)
    ensures Dfn42[19] == FieldSpec("meta.protocol_ver", 101, 8, Ascii)
    ensures Dfn42[20] == FieldSpec("meta.dc_master_fw_ver", 109, 8, Ascii)
    ensures Dfn42[21] == FieldSpec("meta.ac_fw_ver", 117, 8, Ascii)
    ensures Dfn42[18] == FieldSpec("meta.current_time", 245, 6, DateTime)
  {
  }

  /** The five entries that can raise decode exactly under these conditions. */
  lemma Dfn42RaisingConditions(payload: seq<Byte>)
    ensures (Decodes(Dfn42[0], payload) && Decodes(Dfn42[18], payload) && Decodes(Dfn42[19], payload)
             && Decodes(Dfn42[20], payload) && Decodes(Dfn42[21], payload))
         == (|payload| >= 250 && IsAscii(Slice(payload, 21, 10)) && IsAscii(Slice(payload, 101, 8))
             && IsAscii(Slice(payload, 109, 8)) && IsAscii(Slice(payload, 117, 8)))
  {
    Dfn42RaisingEntries();
  }

  /** When those five decode, every entry does. */
  lemma Dfn42OthersDecode(payload: seq<Byte>)
    requires Decodes(Dfn42[0], payload) && Decodes(Dfn42[18], payload) && Decodes(Dfn42[19], payload)
             && Decodes(Dfn42[20], payload) && Decodes(Dfn42[21], payload)
    ensures forall i :: 0 <= i < |Dfn42| ==> Decodes(Dfn42[i], payload)
  {
    Dfn42RaisingEntries();
  }

  /** Evaluating the whole table completes exactly when the date-time read at
      245..249 is in range and the four text fields are ASCII. */
  lemma Dfn42Decodes(payload: seq<Byte>)
    ensures EvalPrefix(Dfn42, |Dfn42|, payload).Ok? <==>
              |payload| >= 250
              && IsAscii(Slice(payload, 21, 10))
              && IsAscii(Slice(payload, 101, 8))
              && IsAscii(Slice(payload, 109, 8))
              && IsAscii(Slice(payload, 117, 8))
  {
    Dfn42RaisingConditions(payload);
    if Decodes(Dfn42[0], payload) && Decodes(Dfn42[18], payload) && Decodes(Dfn42[19], payload)
       && Decodes(Dfn42[20], payload) && Decodes(Dfn42[21], payload) {
      Dfn42OthersDecode(payload);
    }
  }

  /** On success the result has exactly the table's 22 keys, each holding its
      entry's decoder applied at its offset and width. */
  lemma Dfn42Result(payload: seq<Byte>)
    requires EvalPrefix(Dfn42, |Dfn42|, payload).Ok?
    ensures EvalPrefix(Dfn42, |Dfn42|, payload).value.Keys == Names(Dfn42)
    ensures |Names(Dfn42)| == 22
    ensures forall i :: 0 <= i < |Dfn42| ==>
              Ok(EvalPrefix(Dfn42, |Dfn42|, payload).value[Dfn42[i].name]) == EvalField(Dfn42[i], payload)
  {
    Dfn42DistinctNames();
    EvalPrefixKeys(Dfn42, |Dfn42|, payload);
    assert Dfn42[..|Dfn42|] == Dfn42;
    forall i | 0 <= i < |Dfn42|
      ensures Ok(EvalPrefix(Dfn42, |Dfn42|, payload).value[Dfn42[i].name]) == EvalField(Dfn42[i], payload)
    {
      EvalPrefixValues(Dfn42, |Dfn42|, payload, i);
    }
    DistinctNamesCount(Dfn42);
  }

  lemma {:induction false} DistinctNamesCount(table: seq<FieldSpec>)
    requires DistinctNames(table)
    ensures |Names(table)| == |table|
  {
    if table != [] {
      var last := |table| - 1;
      assert Names(table) == Names(table[..last]) + {table[last].name};
      assert table[last].name !in Names(table[..last]);
      DistinctNamesCount(table[..last]);
    }
  }
}

=== FILE: values.dfy ===
/** The value decoders of the Deye module (`fn1`, `fn10`, `fn100`, `fn1000`,
    `fnascii`, `fnDT`). Each reads `l` bytes at offset `a` of a buffer. Python
    exceptions are modelled as `Raised` outcomes. */
module Values {
  import opened Bytes

  /** The exceptions a decoder can raise: an index past the end of the buffer,
      or text outside the ASCII range (see `FnAscii`). */
  datatype Exception = IndexError | NonAsciiText

  /** A value, or the exception the source raises instead. */
  datatype Outcome<+T> = Ok(value: T) | Raised(error: Exception)

  datatype Option<+T> = None | Some(value: T)

  /** A decoded field: an `int`, a `float` (modelled exactly as a real) or a `str`. */
  datatype Value = Num(n: nat) | Fixed(x: real) | Text(s: string)

  // ---------------------------------------------------------------- integers

  /** `fn1`: the unsigned little-endian integer in `buf[a:a + l]`. */
  function Fn1(buf: seq<Byte>, a: nat, l: nat): (r: nat)
    ensures r < Pow256(l)
    ensures a + l <= |buf| ==> r == WeightedSum(buf[a..a + l], l)
  {
    var s := Slice(buf, a, l);
    Pow256Monotone(|s|, l);
    if a + l <= |buf| then
      assert s == buf[a..a + l][..l];
      LittleEndianIsWeightedSum(buf[a..a + l], l);
      LittleEndian(s)
    else
      LittleEndian(s)
  }

  /** `fn10`: the same integer in tenths. */
  function Fn10(buf: seq<Byte>, a: nat, l: nat): (r: real)
    ensures r * 10.0 == Fn1(buf, a, l) as real
    ensures 0.0 <= r < Pow256(l) as real / 10.0
  {
    Fn1(buf, a, l) as real / 10.0
  }

  /** `fn100`: the same integer in hundredths. */
  function Fn100(buf: seq<Byte>, a: nat, l: nat): (r: real)
    ensures r * 100.0 == Fn1(buf, a, l) as real
    ensures 0.0 <= r < Pow256(l) as real / 100.0
  {
    Fn1(buf, a, l) as real / 100.0
  }

  /** `fn1000`: the same integer in thousandths. */
  function Fn1000(buf: seq<Byte>, a: nat, l: nat): (r: real)
    ensures r * 1000.0 == Fn1(buf, a, l) as real
    ensures 0.0 <= r < Pow256(l) as real / 1000.0
  {
    Fn1(buf, a, l) as real / 1000.0
  }

  /** The raw little-endian value 1234 (bytes D2 04) reads as 123.4 in tenths
      and 12.34 in hundredths. */
  lemma ScaledExample()
    ensures Fn1([0xD2, 0x04], 0, 2) == 1234
    ensures Fn10([0xD2, 0x04], 0, 2) == 123.4
    ensures Fn100([0xD2, 0x04], 0, 2) == 12.34
    ensures Fn1000([0xD2, 0x04], 0, 2) == 1.234
  {
    assert Slice([0xD2, 0x04], 0, 2) == [0xD2, 0x04];
    assert LittleEndian([0x04]) == 4 by {
      assert [0x04][1..] == [];
    }
    assert [0xD2, 0x04][1..] == [0x04];
  }

  /** Logger serial bytes 2D 5B 61 99 read as 2573294381 (0x99615B2D). */
  lemma SerialExample()
    ensures Fn1([0x2D, 0x5B, 0x61, 0x99], 0, 4) == 2573294381
  {
    var s: seq<Byte> := [0x2D, 0x5B, 0x61, 0x99];
    assert Slice(s, 0, 4) == s;
    assert s[1..] == [0x5B, 0x61, 0x99];
    assert s[1..][1..] == [0x61, 0x99];
    assert s[1..][1..][1..] == [0x99];
    assert s[1..][1..][1..][1..] == [];
  }

  // ---------------------------------------------------------------- text

  predicate IsAscii(s: seq<Byte>)
  {
    forall i :: 0 <= i < |s| ==> s[i] < 0x80
  }

  /** The character codes of a text, one byte per character. */
  function CharCodes(t: string): seq<int>
  {
    seq(|t|, i requires 0 <= i < |t| => t[i] as int)
  }

  /** `fnascii`: `buf[a:a + l]` decoded as text. Every byte below 0x80 is one
      character with that code; nothing is trimmed. */
  function FnAscii(buf: seq<Byte>, a: nat, l: nat): (r: Outcome<string>)
    ensures r.Ok? <==> IsAscii(Slice(buf, a, l))
    ensures r.Raised? ==> r.error == NonAsciiText
    ensures r.Ok? ==> CharCodes(r.value) == Slice(buf, a, l)
    ensures r.Ok? && a + l <= |buf| ==> |r.value| == l
  {
    var s := Slice(buf, a, l);
    if IsAscii(s) then
      Ok(seq(|s|, i requires 0 <= i < |s| => s[i] as char))
    else
      Raised(NonAsciiText)
  }

  /** The nine bytes "DEYE12345" read back as the text "DEYE12345". */
  lemma AsciiExample()
    ensures FnAscii([68, 69, 89, 69, 49, 50, 51, 52, 53], 0, 9) == Ok("DEYE12345")
  {
    var s: seq<Byte> := [68, 69, 89, 69, 49, 50, 51, 52, 53];
    assert Slice(s, 0, 9) == s;
    var t := seq(|s|, i requires 0 <= i < |s| => s[i] as char);
    assert t == "DEYE12345";
  }

  // ---------------------------------------------------------------- decimal text

  predicate IsDigit(c: char) { '0' <= c <= '9' }

  predicate AllDigits(s: string)
  {
    forall i :: 0 <= i < |s| ==> IsDigit(s[i])
  }

  function DigitChar(d: nat): (c: char)
    requires d < 10
    ensures IsDigit(c)
  {
    (48 + d) as char
  }

  function DigitValue(c: char): (d: nat)
    requires IsDigit(c)
    ensures d < 10
  {
    c as int - 48
  }

  /** `str(n)`: decimal digits without leading zeros. */
  function Decimal(n: nat): (s: string)
    ensures AllDigits(s)
    ensures |s| == 1 <==> n < 10
    ensures n < 100 ==> |s| <= 2
    ensures |s| >= 1
    ensures s[0] == '0' <==> n == 0
    decreases n
  {
    if n < 10 then [DigitChar(n)] else Decimal(n / 10) + [DigitChar(n % 10)]
  }

  /** `f'{n:02d}'`: decimal, padded with zeros to at least two digits. */
  function ZeroPad2(n: nat): (s: string)
    ensures AllDigits(s)
    ensures |s| >= 2
    ensures n < 100 ==> |s| == 2
    ensures s[0] == '0' <==> n < 10
  {
    if n < 10 then "0" + Decimal(n) else Decimal(n)
  }

  /** Reads a string of decimal digits (leading zeros allowed). */
  function ParseDecimal(s: string): nat
    requires AllDigits(s)
  {
    if s == [] then 0 else ParseDecimal(s[..|s| - 1]) * 10 + DigitValue(s[|s| - 1])
  }

  lemma {:induction false} ParseDecimalOfDecimal(n: nat)
    ensures ParseDecimal(Decimal(n)) == n
    decreases n
  {
    var s := Decimal(n);
    if n >= 10 {
      assert s[..|s| - 1] == Decimal(n / 10);
      ParseDecimalOfDecimal(n / 10);
    } else {
      assert s[..0] == [];
    }
  }

  /** Conversely, a digit string without a leading zero is the decimal text
      of the value it reads as, so `Decimal` is the only such rendering. */
  lemma {:induction false} DecimalOfParseDecimal(s: string)
    requires AllDigits(s) && |s| >= 1 && (|s| > 1 ==> s[0] != '0')
    ensures Decimal(ParseDecimal(s)) == s
    ensures |s| > 1 ==> ParseDecimal(s) >= 10
    decreases |s|
  {
    var init, c := s[..|s| - 1], s[|s| - 1];
    var d := DigitValue(c);
    assert DigitChar(d) == c;
    if |s| == 1 {
      assert init == [];
      assert s == [c];
    } else {
      DecimalOfParseDecimal(init);
      var p := ParseDecimal(init);
      assert p >= 1 by {
        if |init| == 1 {
          assert init == [s[0]];
          assert init[..0] == [];
        }
      }
      var m := ParseDecimal(s);
      assert m == p * 10 + d;
      assert m / 10 == p && m % 10 == d;
      assert s == init + [c];
    }
  }

  /** A leading zero does not change the value read. */
  lemma {:induction false} ParseDecimalLeadingZero(s: string)
    requires AllDigits(s)
    ensures AllDigits("0" + s) && ParseDecimal("0" + s) == ParseDecimal(s)
    decreases |s|
  {
    var t := "0" + s;
    if s == [] {
      assert t[..0] == [];
    } else {
      assert t[..|t| - 1] == "0" + s[..|s| - 1];
      ParseDecimalLeadingZero(s[..|s| - 1]);
    }
  }

  lemma ParseZeroPad2(n: nat)
    ensures ParseDecimal(ZeroPad2(n)) == n
  {
    ParseDecimalOfDecimal(n);
    if n < 10 {
      ParseDecimalLeadingZero(Decimal(n));
    }
  }

  // ---------------------------------------------------------------- date-time

  /** `fnDT`: the packed date-time at `a`, rendered as
      `YYYY-MM-DD:hh:mm:hh`. The year byte is an offset from 2000; the hour
      byte `buf[a + 3]` is rendered twice, `buf[a + 5]` is never read and the
      length argument is ignored. Indexing past the end raises. */
  function FnDT(buf: seq<Byte>, a: nat, l: nat): (r: Outcome<string>)
    ensures r.Ok? <==> a + 4 < |buf|
    ensures r.Raised? ==> r.error == IndexError
  {
    if a + 4 < |buf| then
      Ok(Decimal(buf[a] as int + 2000) + "-" + ZeroPad2(buf[a + 1]) + "-" + ZeroPad2(buf[a + 2])
         + ":" + ZeroPad2(buf[a + 3]) + ":" + ZeroPad2(buf[a + 4]) + ":" + ZeroPad2(buf[a + 3]))
    else
      Raised(IndexError)
  }

  /** The six components of a rendered date-time, in order. */
  datatype Stamp = Stamp(year: nat, month: nat, day: nat, hour: nat, minute: nat, sixth: nat)

  /** The prefix of `s` before the first `sep`, and the rest after it. */
  function SplitFirst(s: string, sep: char): Option<(string, string)>
  {
    if s == [] then None
    else if s[0] == sep then Some(([], s[1..]))
    else
      match SplitFirst(s[1..], sep)
      case None => None
      case Some(pr) => Some(([s[0]] + pr.0, pr.1))
  }

  lemma {:induction false} SplitFirstAfterDigits(p: string, sep: char, rest: string)
    requires AllDigits(p) && !IsDigit(sep)
    ensures SplitFirst(p + [sep] + rest, sep) == Some((p, rest))
  {
    var s := p + [sep] + rest;
    if p == [] {
      assert s[1..] == rest;
    } else {
      assert s[1..] == p[1..] + [sep] + rest;
      SplitFirstAfterDigits(p[1..], sep, rest);
      assert [p[0]] + p[1..] == p;
    }
  }

  /** How `str` renders a number: digits, and no leading zero unless the
      number is 0. */
  predicate Unpadded(c: string)
  {
    AllDigits(c) && |c| >= 1 && (|c| > 1 ==> c[0] != '0')
  }

  /** How `:02d` renders a number: at least two digits, and a leading zero
      only when exactly two. */
  predicate Padded2(c: string)
  {
    AllDigits(c) && |c| >= 2 && (|c| > 2 ==> c[0] != '0')
  }

  /** Reads a rendered date-time `Y-M-D:h:m:x` back into its six numbers.
      The year must be written as `str` writes it and the other five as
      `:02d` writes them; any other text is rejected. */
  function ParseDateTime(s: string): Option<Stamp>
  {
    var p1 := SplitFirst(s, '-');
    if p1.None? then None else
    var p2 := SplitFirst(p1.value.1, '-');
    if p2.None? then None else
    var p3 := SplitFirst(p2.value.1, ':');
    if p3.None? then None else
    var p4 := SplitFirst(p3.value.1, ':');
    if p4.None? then None else
    var p5 := SplitFirst(p4.value.1, ':');
    if p5.None? then None else
    var year, month, day, hour, minute, sixth :=
      p1.value.0, p2.value.0, p3.value.0, p4.value.0, p5.value.0, p5.value.1;
    if Unpadded(year) && Padded2(month) && Padded2(day) && Padded2(hour)
       && Padded2(minute) && Padded2(sixth)
    then
      Some(Stamp(ParseDecimal(year), ParseDecimal(month), ParseDecimal(day),
                 ParseDecimal(hour), ParseDecimal(minute), ParseDecimal(sixth)))
    else
      None
  }

  /** Six digit strings, rendered as `str` and `:02d` render, joined by `-`,
      `-`, `:`, `:`, `:` read back as their six numbers. */
  lemma {:induction false} ParseDateTimeOfJoin(y: string, mo: string, d: string, h: string, mi: string, x: string)
    requires Unpadded(y) && Padded2(mo) && Padded2(d) && Padded2(h) && Padded2(mi) && Padded2(x)
    ensures ParseDateTime(y + "-" + mo + "-" + d + ":" + h + ":" + mi + ":" + x)
         == Some(Stamp(ParseDecimal(y), ParseDecimal(mo), ParseDecimal(d), ParseDecimal(h),
                       ParseDecimal(mi), ParseDecimal(x)))
  {
    var r4 := mi + ":" + x;
    var r3 := h + ":" + r4;
    var r2 := d + ":" + r3;
    var r1 := mo + "-" + r2;
    assert y + "-" + mo + "-" + d + ":" + h + ":" + mi + ":" + x == y + "-" + r1;
    SplitFirstAfterDigits(y, '-', r1);
    SplitFirstAfterDigits(mo, '-', r2);
    SplitFirstAfterDigits(d, ':', r3);
    SplitFirstAfterDigits(h, ':', r4);
    SplitFirstAfterDigits(mi, ':', x);
  }

  /** A split puts back together into the string it came from. */
  lemma {:induction false} SplitFirstJoins(s: string, sep: char)
    requires SplitFirst(s, sep).Some?
    ensures s == SplitFirst(s, sep).value.0 + [sep] + SplitFirst(s, sep).value.1
  {
    if s[0] != sep {
      SplitFirstJoins(s[1..], sep);
    }
  }

  /** A `:02d` rendering is `ZeroPad2` of the value it reads as. */
  lemma ZeroPad2OfParseDecimal(c: string)
    requires Padded2(c)
    ensures ZeroPad2(ParseDecimal(c)) == c
  {
    if c[0] == '0' {
      var t := c[1..];
      assert c == "0" + t && |t| == 1;
      DecimalOfParseDecimal(t);
      ParseDecimalLeadingZero(t);
    } else {
      DecimalOfParseDecimal(c);
    }
  }

  /** Five splits, put back together, give the whole joined text. */
  lemma JoinSplits(s: string, y: string, r1: string, mo: string, r2: string, d: string, r3: string,
                   h: string, r4: string, mi: string, x: string)
    requires s == y + "-" + r1 && r1 == mo + "-" + r2 && r2 == d + ":" + r3
    requires r3 == h + ":" + r4 && r4 == mi + ":" + x
    ensures s == y + "-" + mo + "-" + d + ":" + h + ":" + mi + ":" + x
  {
  }

  /** The parser accepts only canonical renderings: whatever it reads back is
      exactly the text `str` and `:02d` write for the numbers it returns. */
  lemma ParseDateTimeCanonical(s: string)
    requires ParseDateTime(s).Some?
    ensures var t := ParseDateTime(s).value;
            s == Decimal(t.year) + "-" + ZeroPad2(t.month) + "-" + ZeroPad2(t.day) + ":"
                 + ZeroPad2(t.hour) + ":" + ZeroPad2(t.minute) + ":" + ZeroPad2(t.sixth)
  {
    var p1 := SplitFirst(s, '-').value;
    var p2 := SplitFirst(p1.1, '-').value;
    var p3 := SplitFirst(p2.1, ':').value;
    var p4 := SplitFirst(p3.1, ':').value;
    var p5 := SplitFirst(p4.1, ':').value;
    var t := ParseDateTime(s).value;
    assert t == Stamp(ParseDecimal(p1.0), ParseDecimal(p2.0), ParseDecimal(p3.0),
                      ParseDecimal(p4.0), ParseDecimal(p5.0), ParseDecimal(p5.1));
    SplitFirstJoins(s, '-');
    SplitFirstJoins(p1.1, '-');
    SplitFirstJoins(p2.1, ':');
    SplitFirstJoins(p3.1, ':');
    SplitFirstJoins(p4.1, ':');
    JoinSplits(s, p1.0, p1.1, p2.0, p2.1, p3.0, p3.1, p4.0, p4.1, p5.0, p5.1);
    DecimalOfParseDecimal(p1.0);
    ZeroPad2OfParseDecimal(p2.0);
    ZeroPad2OfParseDecimal(p3.0);
    ZeroPad2OfParseDecimal(p4.0);
    ZeroPad2OfParseDecimal(p5.0);
    ZeroPad2OfParseDecimal(p5.1);
  }

  /** The rendering of `fnDT` reads back as year `buf[a] + 2000`, then
      `buf[a + 1]` to `buf[a + 4]`, then the hour byte `buf[a + 3]` again. */
  lemma FnDTRoundTrip(buf: seq<Byte>, a: nat, l: nat)
    requires a + 4 < |buf|
    ensures ParseDateTime(FnDT(buf, a, l).value)
         == Some(Stamp(buf[a] as int + 2000, buf[a + 1], buf[a + 2], buf[a + 3], buf[a + 4], buf[a + 3]))
  {
    var year := buf[a] as int + 2000;
    var y, mo, d, h, mi := Decimal(year), ZeroPad2(buf[a + 1]), ZeroPad2(buf[a + 2]),
                           ZeroPad2(buf[a + 3]), ZeroPad2(buf[a + 4]);
    assert FnDT(buf, a, l).value == y + "-" + mo + "-" + d + ":" + h + ":" + mi + ":" + h;
    ParseDateTimeOfJoin(y, mo, d, h, mi, h);
    ParseDecimalOfDecimal(year);
    ParseZeroPad2(buf[a + 1]);
    ParseZeroPad2(buf[a + 2]);
    ParseZeroPad2(buf[a + 3]);
    ParseZeroPad2(buf[a + 4]);
  }

  /** `fnDT` reads only `buf[a]` to `buf[a + 4]`: the byte at `a + 5`, every
      later byte and the length argument do not affect it. */
  lemma FnDTReadsFiveBytes(buf: seq<Byte>, other: seq<Byte>, a: nat, l: nat, l': nat)
    requires a + 4 < |buf| && a + 4 < |other|
    requires buf[a..a + 5] == other[a..a + 5]
    ensures FnDT(buf, a, l) == FnDT(other, a, l')
  {
    var window := buf[a..a + 5];
    assert buf[a] == window[0] == other[a];
    assert buf[a + 1] == window[1] == other[a + 1];
    assert buf[a + 2] == window[2] == other[a + 2];
    assert buf[a + 3] == window[3] == other[a + 3];
    assert buf[a + 4] == window[4] == other[a + 4];
  }

  /** The renderings used by `DateTimeExample`. */
  lemma ExampleComponents()
    ensures Decimal(2024) == "2024"
    ensures ZeroPad2(3) == "03" && ZeroPad2(15) == "15" && ZeroPad2(14) == "14" && ZeroPad2(30) == "30"
  {
  }

  /** Bytes 24 03 15 14 30 14 (decimal) render as "2024-03-15:14:30:14". */
  lemma DateTimeExample()
    ensures FnDT([24, 3, 15, 14, 30, 14], 0, 6) == Ok("2024-03-15:14:30:14")
  {
    ExampleComponents();
    var buf: seq<Byte> := [24, 3, 15, 14, 30, 14];
    assert buf[0] as int + 2000 == 2024 && buf[1] == 3 && buf[2] == 15 && buf[3] == 14 && buf[4] == 30;
    assert FnDT(buf, 0, 6).value == "2024" + "-" + "03" + "-" + "15" + ":" + "14" + ":" + "30" + ":" + "14";
    assert "2024" + "-" + "03" + "-" + "15" + ":" + "14" + ":" + "30" + ":" + "14" == "2024-03-15:14:30:14";
  }
}
